=== FILE: README.md ===
# Column-View core in Dafny

Column-View shows one web page, or several, in side-by-side iframe columns.
In **single-page** mode one long page is tiled across the columns as
contiguous vertical slices. In **multi-page** mode every column has its own
address, and the columns scroll in lockstep. This project models the pure
logic of `src/main.ts` with its DOM and timer wiring taken out:

- **Scroll synchroniser** (`ScrollSync`). `scroll` becomes a step function
  over the column offsets (`seq<int>`), the re-entrancy guard
  `scrollingSourceIndex` and a flag for its pending 100 ms timer. A scroll
  event carries the offset the user moved the column to; the move is applied
  first and the handler then runs on it. The timer firing is an explicit
  event. The column height is a parameter of every scroll event, because
  the handler reads it from the DOM each time.
- **Iframe reload detector** (`IframeReload`). `onIframeLoad` is a two-phase
  step over the set of recorded frame ids. The address it assigns
  (`IframeReload.HandlerUrl`, line 244) is shown to be the one the view
  renders for that column (`AppState.ColumnUrl`, line 269).
- **Query-string codec** (`HistoryCodec`, `SearchParams`, `JsNumber`). This
  covers the boot-time reading of the page address and `updateHistory`.
  `URLSearchParams` is an ordered list of name/value pairs with `get`,
  `getAll`, `set` and `append`. `parseInt` and the decimal `toString` are
  written out, and `parseInt` returns `None` for `NaN`.
- **Address input** (`UrlInput`). This covers the `https://` prefixing rule
  of `onUrlChange` and its write to either the single page's address or one
  column's entry.
- **Application** (`App`). One event type ties the pieces together: a scroll,
  the guard timer, an iframe load or an address edit. Each step reports its
  outside effect: a history replacement or a forced frame address.
  `App.Step` writes the history as `updateHistory` does; `App.CorrectedStep`
  writes it with the correction described under Findings.

Behaviour of src/main.ts worth knowing:

- The display mode read from the query is a cast, not a check. Any
  non-empty text is kept. Such a mode is neither of the two known modes:
  scrolling skips the floor reset but still tiles, the history writes
  `urls`, and columns use their own entries. It is modelled as
  `Unrecognised(name)`.
- The default column width is 375.
- Neither the column count nor the width is clamped to a range when decoded.
- `urls` can be a sparse array (see Findings). It is modelled as
  `seq<Option<string>>`, where `None` is a hole.

## Model

| member | source | states |
|---|---|---|
| `JsNumber.ParseIntRoundTrip` | src/main.ts:74-75 | `parseInt` of an integer's decimal text gives the integer back, for every sign and size |
| `JsNumber.ParseIntOfIntToString` | src/main.ts:74-75 | `parseInt` stops at the first non-digit after the number (`"375px"` reads as 375); only `0` followed by `x` switches to hexadecimal |
| `JsNumber.ParseIntSkipsWhiteSpace` | src/main.ts:74-75 | leading ECMAScript white space never changes what `parseInt` reads |
| `JsNumber.NatToStringValue` | src/main.ts:156-157 | the decimal digits `toString` writes have exactly the value of the number |
| `JsNumber.ParseInt` | src/main.ts:74-75 | after the white space, text that starts with neither a sign nor a decimal digit is `NaN`; a decimal digit that does not open `0x` always gives a non-negative number; only a leading minus gives a negative one |
| `JsNumber.IntToString` | src/main.ts:156-157 | the text is non-empty, starts with `-` exactly for a negative number, and is otherwise all decimal digits |
| `JsNumber.TrimStart` | src/main.ts:74-75 | the result is the input's suffix after a run of white space and does not start with white space |
| `SearchParams.GetAllSingle` | src/main.ts:73 | `getAll` over a single pair gives its value under its own name and nothing under any other |
| `SearchParams.GetAllConcat` | src/main.ts:73 | `getAll` over two lists in a row is the first list's values followed by the second's; with `GetAllSingle` and the empty list reading as nothing, this fixes `getAll` on every list |
| `SearchParams.Get` | src/main.ts:67-69 | `get` is absent exactly when no pair has the name, and otherwise is the first of the `getAll` values |
| `SearchParams.Set` | src/main.ts:148-157 | after `set`, the name holds exactly the one value; other names keep their values; a new name is appended at the end |
| `SearchParams.Append` | src/main.ts:152-154 | `append` adds the value after the name's earlier values and leaves other names alone |
| `SearchParams.AppendEach` | src/main.ts:152-154 | appending each value in turn adds one pair per value, in order |
| `SearchParams.GetAllPairs` | src/main.ts:73 | `getAll` over a run of appended pairs returns the values in order under that name and nothing under any other |
| `HistoryCodec.Param` | src/main.ts:67-69 | a key reads as its first value, and a missing key reads as empty text |
| `HistoryCodec.DecodeMode` | src/main.ts:71 | empty text decodes to single-page; any other text decodes to the mode written with exactly that text |
| `HistoryCodec.ParseOr` | src/main.ts:74-75 | the fallback is used exactly when `parseInt` gives `NaN` or 0; other values are kept with no range check; the result is never 0 for a non-zero fallback (5 and 375 here) |
| `HistoryCodec.Decode` | src/main.ts:66-75 | the mode is the one written as the first `displayMode` value, single-page when that is missing or empty; `url` is the first `url` value or empty text; count and width are the parsed first values unless `parseInt` gives `NaN` or 0, else 5 and 375; `urls` holds every `urls` value in order, with no holes |
| `HistoryCodec.Serialize` | src/main.ts:145-157 | the written pairs are, in order: `displayMode`; then `url` (single-page) or one `urls` pair per value; then `columnsCount` and `columnsWidth` |
| `HistoryCodec.GetAllSerialize` | src/main.ts:145-157 | each key of the written query holds exactly the values written for it |
| `HistoryCodec.Present` | src/main.ts:152-154 | every value `forEach` yields from a sparse array is one of its entries, every entry's value is yielded, and without holes it yields every slot in order |
| `HistoryCodec.PresentSlot` | src/main.ts:152-154 | over one slot, `forEach` yields nothing for a hole and the value for an entry |
| `HistoryCodec.PresentConcat` | src/main.ts:152-154 | `forEach` visits slots in index order: the values yielded from a concatenation are those of the first part followed by those of the second; with `PresentSlot` this fixes the order and count of the yielded values |
| `HistoryCodec.EncodeAsWritten` | src/main.ts:145-157 | the written history holds the mode's text, the single page's address (single-page mode) or the defined `urls` entries packed together (other modes), and the decimal count and width |
| `HistoryCodec.Encode` | src/main.ts:145-157 | corrected `updateHistory`: as above, except that `urls` holds one value per slot, a hole as empty text |
| `HistoryCodec.DecodeEncode` | src/main.ts:145-157 | decoding the written history restores mode, count and width (when non-zero), the single page's address, or every column entry with holes read as empty |
| `HistoryCodec.DecodeEncodeAsWritten` | src/main.ts:152-154 | with the history as written, the decoded `urls` are the defined entries packed to the front |
| `HistoryCodec.ReloadKeepsColumns` | src/main.ts:145-157 | with holes written as empty text, every column shows the same iframe after a reload as before |
| `HistoryCodec.EncodeAsWrittenWithoutHoles` | src/main.ts:148-154 | in single-page mode, or when `urls` has no holes, the history as written equals the corrected one |
| `UrlInput.Normalize` | src/main.ts:180-183 | the result always starts with `http`; it equals the input exactly when the input starts with `http`, and is `https://` + input otherwise |
| `UrlInput.NormalizeIdempotent` | src/main.ts:180-183 | normalising twice equals normalising once |
| `UrlInput.SetSlot` | src/main.ts:188 | a JavaScript array assignment: the slot gets the value, other slots keep theirs, the array grows to index + 1, and any new slots in between are holes |
| `UrlInput.Assign` | src/main.ts:185-189 | the header field writes the normalised text to the single page's address and nothing else; a column field writes it to that column's entry, grows `urls` to reach the column, leaves every new slot before it a hole, and keeps every other entry; mode, count and width are unchanged |
| `UrlInput.AssignShowsEdit` | src/main.ts:185-189 | after a column edit outside single-page mode, that column shows the normalised address and every other column shows what it showed |
| `AppState.ColumnUrl` | src/main.ts:269 | a column's address is the single page's address in single-page mode, and otherwise that column's entry, undefined when it is missing or a hole |
| `AppState.Shown` | src/main.ts:304 | a column has an iframe exactly when its address is defined and non-empty |
| `ScrollSync.Reading` | src/main.ts:97 | the offset the handler uses is never negative, and equals the column's offset when that offset is not negative |
| `ScrollSync.Scroll` | src/main.ts:95-143 | when another column holds the guard nothing changes. Below the single-page floor, every column goes to its floor and the guard is left alone. Otherwise the guard takes the source, its timer restarts, and the source is not written. Taking the source at its clamped reading, the result is mirrored (multi-page) or tiled (otherwise). In the two known modes no written offset is negative. The guard/timer invariant is kept |
| `ScrollSync.FloorLayout` | src/main.ts:110-113 | the floor reset gives tiled columns starting at 0 |
| `ScrollSync.Propagate` | src/main.ts:121-134 | the `forEach` writes: the source keeps its offset; in multi-page mode every other column gets the reading; in any other mode column i gets reading + height × (i − k) |
| `ScrollSync.PropagateTiles` | src/main.ts:121-134 | outside multi-page mode, the propagated offsets, with the source at its reading, are contiguous slices: any two columns are apart by height × distance |
| `ScrollSync.TimerFired` | src/main.ts:136-139 | the timer releases the guard and changes no offset; with no timer pending, nothing changes |
| `ScrollSync.Step` | src/main.ts:95-139 | a scroll event moves its column and runs the handler: while another column holds the guard the move is all that happens, and unless the floor reset puts it back the moved column stays where the user put it; the timer moves nothing; the guard stays set exactly while its timer is pending |
| `ScrollSync.Run` | src/main.ts:92-139 | any sequence of scroll and timer events keeps the guard and its timer together, and timer events alone move no column |
| `ScrollSync.GuardHoldsUntilTimer` | src/main.ts:100-102 | while column j holds the guard, any number of scroll events on other columns change only the columns the user moved, and the guard stays |
| `ScrollSync.UserScrollMirrors` | src/main.ts:119-139 | in multi-page mode, the user moving a free column to a non-negative offset brings every column to that offset and gives that column the guard |
| `ScrollSync.UserScrollTiles` | src/main.ts:104-139 | in single-page mode, the user moving a free column to an offset of at least height × k tiles every column from it (column i at top + height × (i − k)) and gives it the guard |
| `ScrollSync.EchoIgnored` | src/main.ts:119-134 | the scroll events that a propagation's own writes raise on other columns, each reporting the offset just written, are dropped |
| `ScrollSync.AlignedIsFixedPoint` | src/main.ts:104-133 | in single-page mode, tiled columns starting at a non-negative offset are left as they are by a scroll event on any column |
| `ScrollSync.MirroredIsFixedPoint` | src/main.ts:126-128 | in multi-page mode, equal non-negative offsets are left as they are by a scroll event on any column |
| `ScrollSync.FloorResetSettles` | src/main.ts:104-116 | the floor reset does not arm the guard; the scroll events its writes raise leave the reset layout unchanged |
| `ScrollSync.RescrollIdempotent` | src/main.ts:119-134 | a second event on the source before the timer fires changes nothing, in every mode and for any source offset |
| `ScrollSync.UnrecognisedModeWritesBelowZero` | src/main.ts:126-133 | with an unrecognised mode, a column before the source can be written a negative offset |
| `IframeReload.HandlerUrl` | src/main.ts:244 | the handler's address is the single page's address in single-page mode, otherwise the entry at `index`, a null index read as 0, undefined when missing or a hole |
| `IframeReload.OnIframeLoad` | src/main.ts:230-246 | with no `src`, nothing happens. The first load records the id and leaves the address alone. The second load forgets the id and assigns the handler's address. Other ids are untouched |
| `IframeReload.ReassignsViewAddress` | src/main.ts:244 | the handler's address for index i is the view's address for column i (line 269), and a null index reads column 0 |
| `IframeReload.TwoLoadsReassignOnce` | src/main.ts:237-245 | two loads of an unrecorded frame assign the address once and restore the recorded ids |
| `IframeReload.Loads` | src/main.ts:237-245 | n loads of one frame keep its id, assign at most n addresses and touch no other recorded id; a frame with no `src` changes nothing |
| `IframeReload.LoadsAlternate` | src/main.ts:237-245 | after n loads of an unrecorded frame whose column has an address, n / 2 addresses were assigned and the frame is recorded exactly when n is odd |
| `App.Boot` | src/main.ts:79-90 | the boot state holds the decoded settings, no guard, no pending timer and no recorded frame, and satisfies the invariant |
| `App.Step` | src/main.ts:92-246 | each event's state change is exactly its handler's: an edit's settings are `UrlInput.Assign`'s, a scroll runs `ScrollSync.Step` (the user's move, then `scroll`), the timer runs `ScrollSync.TimerFired`, a load's recorded ids are `IframeReload.OnIframeLoad`'s; so an edit stores the normalised text in the edited field (for a column outside single-page mode, that column then shows it), changes only the settings and replaces the history as `updateHistory` writes it (holes skipped). Scroll and timer events touch only the synchroniser; a scrolled column keeps the user's offset unless the floor reset moves it; the timer releases the guard and moves no column. A frame's first load records it with no effect; its second load forces the address the view shows for that column, and a forced address happens on no other event. The invariant is kept |
| `App.CorrectedStep` | src/main.ts:185-190 | the step with the corrected history: the same state as `Step`, the history with one `urls` pair per slot, and the very same result as `Step` whenever the edited `urls` has no holes or the mode is single-page |
| `App.EditKeepsNoHoles` | src/main.ts:185-188 | an edit of a column at most one past the end of a hole-free `urls` leaves it hole-free |
| `App.EditedHistoryReloads` | src/main.ts:185-190 | with the history as written: in single-page mode, or when `urls` has no holes and the edited column is at most one past its end, reloading restores mode, count, width and every column's iframe |
| `App.CorrectedEditReloads` | src/main.ts:185-190 | with the corrected history, after any edit, reloading restores mode, count, width and every column's iframe |
| `App.AsWrittenHistoryMovesAddress` | src/main.ts:152-154 | boot with `?displayMode=multi-page` and type `example.com` in the third column. Reloading from the history `App.Step` writes shows the address in the first column and leaves the third empty |

## Left out

- Snabbdom `view`/`patch`/`render`, the nav column and the virtual-DOM tree: UI glue over a library not in this source. The deferred `scroll(state, 0)` after a render is a scroll event on column 0 that reports the offset column 0 already has.
- DOM access (`querySelectorAll`, `getBoundingClientRect`): replaced by the offset sequence and a height parameter per event.
- The scroll-indicator style write to the `#app` element (src/main.ts:141-142): a presentation side channel with no state.
- Browser clamping of an assigned `scrollTop` to the scrollable range: offsets are written exactly as computed.
- Floating-point `scrollTop` and heights: integers here.
- lodash `throttle`, `setTimeout` scheduling and the 1000 ms reveal: timing only. The guard timer survives as an explicit event.
- `uuid()`: frame ids are opaque strings.
- `window.history.replaceState` and the production protocol redirect through `location.replace` (src/main.ts:160, 192-198): navigation side effects. The history write is reported as an effect carrying the query.
- Percent-encoding inside `URLSearchParams`: the query is the list of pairs.
- `parseInt` and `toString` on numbers beyond 2^53: JavaScript loses precision there and writes exponent notation from 10^21. Integers are unbounded here.
- Assigning `undefined` to `iframe.src` turns it into the text "undefined" in a browser. The model keeps it as `None`.
- The write-back of the normalised text into the input element (src/main.ts:203), the blur calls and `columnWidthCharCount`: cosmetic.
- `setColumnsCount`, `onClickScreenSizeItem` and `onDisplayModeChange` (src/main.ts:163-173, 216-228): each writes one settings field and calls `updateHistory`; they are not events of `App.Step`. `getDeviceNameByWidth` is a lookup for the view.
- `onColumnsWidthChange` (src/main.ts:206-214): it stores `parseInt` of the field's text, which is `NaN` when the field is cleared or holds no digits. `updateHistory` then writes `columnsWidth=NaN`, which a reload reads back as 375. `Settings.columnsWidth` is an integer and cannot hold `NaN`, so this handler is not modelled.
- Reachability probing and per-column load status: src/main.ts has no such code.
- ScrollSync.Scroll: requires the column index to name a column. The source would throw on a missing column, and its callers only pass indices of rendered columns.

## Findings

| source | as written | input that shows it | evidently intended | confidence | as-written member | corrected member |
|---|---|---|---|---|---|---|
| src/main.ts:152-154 | `state.urls[index] = url` (line 188) past the end of the array leaves holes, and `forEach` skips holes. The history then drops those slots, so after a reload every later address moves to a lower column | boot with `?displayMode=multi-page`, type `example.com` into the third column, reload | one `urls` pair per slot, a hole written as empty text, so that each address keeps its column | high (not executed) | `App.AsWrittenHistoryMovesAddress` | `HistoryCodec.ReloadKeepsColumns` |

`HistoryCodec.EncodeAsWritten` models the code as written and is what
`App.Step` writes. `HistoryCodec.Encode` writes every slot and is what
`App.CorrectedStep` writes; `App.CorrectedEditReloads` proves the intended
property about it for every edit.

=== FILE: app.dfy ===
/** The application as one event-driven state machine: the persistent
    settings, the scroll synchroniser and the recorded iframe ids, stepped by
    the browser events the core handles. Rendering is not modelled; the
    deferred `scroll(state, 0)` that follows each render is a scroll event on
    column 0 that reports the offset column 0 already has. */
module App {
  import opened Base
  import opened AppState
  import opened SearchParams
  import opened HistoryCodec
  import opened UrlInput
  import ScrollSync
  import IframeReload

  datatype State = State(
    settings: Settings,
    sync: ScrollSync.Sync,
    loadedIframeIds: set<IframeReload.FrameId>)

  /** What an event does outside the state. */
  datatype Effect =
    | NoEffect
    | ReplaceHistory(query: Query)
    | SetFrameSource(id: IframeReload.FrameId, src: Option<string>)

  datatype Event =
    | ColumnScrolled(column: nat, top: int, height: nat)
    | GuardTimerFired
    | IframeLoaded(index: Option<nat>, frame: IframeReload.Frame)
    | UrlChanged(field: ColumnAddress, raw: string)

  predicate Valid(s: State) {
    WellFormedMode(s.settings.mode) && ScrollSync.Valid(s.sync)
  }

  /** The state at boot: settings from the page's query, the columns at the
      offsets the browser reports, no guard and no recorded frame. */
  function Boot(q: Query, offsets: seq<int>): (s: State)
    ensures Valid(s)
    ensures s.settings == Decode(q) && s.sync.offsets == offsets
    ensures s.sync.source == None && !s.sync.timerArmed && s.loadedIframeIds == {}
  {
    State(Decode(q), ScrollSync.Sync(offsets, None, false), {})
  }

  predicate Accepts(s: State, e: Event) {
    e.ColumnScrolled? ==> e.column < |s.sync.offsets|
  }

  /** One event. Scrolling and the timer touch only the synchroniser, a load
      only the recorded ids (and the frame's address), an edit only the
      settings, after which the history is replaced as `updateHistory`
      writes it. */
  function Step(s: State, e: Event): (r: (State, Effect))
    requires Accepts(s, e)
    ensures Valid(s) ==> Valid(r.0)
    ensures !e.UrlChanged? ==> r.0.settings == s.settings
    // each event's state change is that of its handler
    ensures e.UrlChanged? ==> r.0.settings == Assign(s.settings, e.field, e.raw)
    ensures e.ColumnScrolled? ==>
              r.0.sync == ScrollSync.Step(s.settings.mode, s.sync, ScrollSync.Scrolled(e.column, e.top, e.height))
    ensures e.GuardTimerFired? ==> r.0.sync == ScrollSync.TimerFired(s.sync)
    ensures e.IframeLoaded? ==>
              r.0.loadedIframeIds == IframeReload.OnIframeLoad(s.settings, s.loadedIframeIds, e.index, e.frame).loaded
    ensures e.UrlChanged? ==>
              r.0.sync == s.sync && r.0.loadedIframeIds == s.loadedIframeIds
              && r.1 == ReplaceHistory(EncodeAsWritten(r.0.settings))
    ensures e.ColumnScrolled? || e.GuardTimerFired? ==>
              r.0.loadedIframeIds == s.loadedIframeIds && r.1 == NoEffect
    ensures |r.0.sync.offsets| == |s.sync.offsets|
    ensures e.ColumnScrolled?
            && !ScrollSync.BelowFloor(s.settings.mode, ScrollSync.Moved(s.sync, e.column, e.top), e.column, e.height)
            ==> r.0.sync.offsets[e.column] == e.top
    // an edit stores the normalised text in the edited field
    ensures e.UrlChanged? && e.field.Primary? ==> r.0.settings.url == Normalize(e.raw)
    ensures e.UrlChanged? && e.field.Indexed? && s.settings.mode != SinglePage ==>
              Shown(r.0.settings, e.field.index) == Some(Normalize(e.raw))
    // the timer releases the guard and moves no column
    ensures e.GuardTimerFired? && Valid(s) ==>
              r.0.sync.source == None && r.0.sync.offsets == s.sync.offsets
    ensures e.IframeLoaded? ==> r.0.sync == s.sync
    // a frame's first load is recorded, its second forces the view's address
    ensures e.IframeLoaded? && e.frame.src.Some? && e.frame.id !in s.loadedIframeIds ==>
              e.frame.id in r.0.loadedIframeIds && r.1 == NoEffect
    ensures e.IframeLoaded? && e.frame.src.Some? && e.frame.id in s.loadedIframeIds ==>
              r.1 == SetFrameSource(e.frame.id, ColumnUrl(s.settings, e.index.GetOr(0)))
    ensures r.1.SetFrameSource? ==>
              e.IframeLoaded? && e.frame.id in s.loadedIframeIds && r.0.loadedIframeIds == s.loadedIframeIds - {e.frame.id}
              && r.1.src == ColumnUrl(s.settings, e.index.GetOr(0))
  {
    match e
    case ColumnScrolled(k, top, height) =>
      (s.(sync := ScrollSync.Step(s.settings.mode, s.sync, ScrollSync.Scrolled(k, top, height))), NoEffect)
    case GuardTimerFired =>
      (s.(sync := ScrollSync.Step(s.settings.mode, s.sync, ScrollSync.TimerElapsed)), NoEffect)
    case IframeLoaded(index, frame) =>
      IframeReload.ReassignsViewAddress(s.settings, index.GetOr(0));
      var out := IframeReload.OnIframeLoad(s.settings, s.loadedIframeIds, index, frame);
      var effect := if frame.src.Some? && frame.id in s.loadedIframeIds
                    then SetFrameSource(frame.id, out.frame.src) else NoEffect;
      (s.(loadedIframeIds := out.loaded), effect)
    case UrlChanged(field, raw) =>
      var settings := Assign(s.settings, field, raw);
      if field.Indexed? && s.settings.mode != SinglePage then
        AssignShowsEdit(s.settings, field, raw, field.index);
        (s.(settings := settings), ReplaceHistory(EncodeAsWritten(settings)))
      else
        (s.(settings := settings), ReplaceHistory(EncodeAsWritten(settings)))
  }

  /** `Step` with the history written one `urls` pair per slot. It differs
      from `Step` only in an edit that leaves holes in `urls`. */
  function CorrectedStep(s: State, e: Event): (r: (State, Effect))
    requires Accepts(s, e)
    ensures r.0 == Step(s, e).0
    ensures e.UrlChanged? ==> r.1 == ReplaceHistory(Encode(r.0.settings))
    ensures !e.UrlChanged? ==> r.1 == Step(s, e).1
    ensures r.0.settings.mode == SinglePage || NoHoles(r.0.settings.urls) ==> r == Step(s, e)
  {
    var r := Step(s, e);
    if e.UrlChanged? then
      EncodeAsWrittenWithoutHoles(r.0.settings);
      (r.0, ReplaceHistory(Encode(r.0.settings)))
    else r
  }

  /** An edit keeps `urls` free of holes when it is free of them before and
      the edited column is at most one past the end (the decoded `urls` have
      no holes, and each column field edits its own column). */
  lemma EditKeepsNoHoles(s: Settings, field: ColumnAddress, raw: string)
    requires NoHoles(s.urls)
    requires field.Indexed? ==> field.index <= |s.urls|
    ensures NoHoles(Assign(s, field, raw).urls)
  {
    var r := Assign(s, field, raw);
    if field.Indexed? {
      forall i | 0 <= i < |r.urls| ensures r.urls[i].Some? {
        if i != field.index {
          assert i < |s.urls|;
        }
      }
    }
  }

  /** After an edit the history `updateHistory` writes holds the state:
      reloading from it restores the mode and geometry and every column's
      iframe, in single-page mode and whenever the edit leaves no hole. */
  lemma {:induction false} EditedHistoryReloads(s: State, field: ColumnAddress, raw: string, i: nat)
    requires Valid(s)
    requires s.settings.columnsCount != 0 && s.settings.columnsWidth != 0
    requires s.settings.mode != SinglePage ==>
               NoHoles(s.settings.urls) && (field.Indexed? ==> field.index <= |s.settings.urls|)
    ensures var r := Step(s, UrlChanged(field, raw));
            && r.1.ReplaceHistory?
            && Decode(r.1.query).mode == r.0.settings.mode
            && Decode(r.1.query).columnsCount == r.0.settings.columnsCount
            && Decode(r.1.query).columnsWidth == r.0.settings.columnsWidth
            && Shown(Decode(r.1.query), i) == Shown(r.0.settings, i)
  {
    var settings := Assign(s.settings, field, raw);
    StepEdit(s, field, raw);
    if s.settings.mode != SinglePage {
      EditKeepsNoHoles(s.settings, field, raw);
    }
    EncodeAsWrittenWithoutHoles(settings);
    DecodeEncode(settings);
    ReloadKeepsColumns(settings, i);
  }

  /** With the corrected history, every edit reloads to the same columns. */
  lemma {:induction false} CorrectedEditReloads(s: State, field: ColumnAddress, raw: string, i: nat)
    requires Valid(s)
    requires s.settings.columnsCount != 0 && s.settings.columnsWidth != 0
    ensures var r := CorrectedStep(s, UrlChanged(field, raw));
            && r.1.ReplaceHistory?
            && Decode(r.1.query).mode == r.0.settings.mode
            && Decode(r.1.query).columnsCount == r.0.settings.columnsCount
            && Decode(r.1.query).columnsWidth == r.0.settings.columnsWidth
            && Shown(Decode(r.1.query), i) == Shown(r.0.settings, i)
  {
    var settings := Assign(s.settings, field, raw);
    StepEdit(s, field, raw);
    ReloadKeepsColumns(settings, i);
    DecodeEncode(settings);
  }

  /** The history as `updateHistory` writes it moves a column's address: boot
      with `?displayMode=multi-page`, type `example.com` into the third
      column, and after a reload from the written history the address shows
      in the first column while the third is empty. */
  lemma {:induction false} AsWrittenHistoryMovesAddress(offsets: seq<int>)
    ensures var booted := Boot([(DisplayModeKey, MultiPageName)], offsets);
            var r := Step(booted, UrlChanged(Indexed(2), "example.com"));
            && r.1.ReplaceHistory?
            && Shown(r.0.settings, 2) == Some("https://example.com")
            && Shown(r.0.settings, 0) == None
            && Shown(Decode(r.1.query), 0) == Some("https://example.com")
            && Shown(Decode(r.1.query), 2) == None
  {
    BootMultiPage();
    ThirdColumnEdit(Boot([(DisplayModeKey, MultiPageName)], offsets));
  }

  /** The edit of the third column, from any state with no address yet. */
  lemma {:induction false} ThirdColumnEdit(s: State)
    requires s.settings == Settings(MultiPage, "", [], DefaultColumnsCount, DefaultColumnsWidth)
    ensures var r := Step(s, UrlChanged(Indexed(2), "example.com"));
            && r.1.ReplaceHistory?
            && Shown(r.0.settings, 2) == Some("https://example.com")
            && Shown(r.0.settings, 0) == None
            && Shown(Decode(r.1.query), 0) == Some("https://example.com")
            && Shown(Decode(r.1.query), 2) == None
  {
    EditLeavesHoles();
    var edited := Settings(MultiPage, "", [None, None, Some("https://example.com")],
                           DefaultColumnsCount, DefaultColumnsWidth);
    StepEdit(s, Indexed(2), "example.com");
    HolesSkipped(edited, "https://example.com");
  }

  /** The step of an edit, unfolded once. */
  lemma StepEdit(s: State, field: ColumnAddress, raw: string)
    ensures Step(s, UrlChanged(field, raw))
            == (s.(settings := Assign(s.settings, field, raw)),
                ReplaceHistory(EncodeAsWritten(Assign(s.settings, field, raw))))
  {
  }

  /** The settings booted from `?displayMode=multi-page`. */
  lemma BootMultiPage()
    ensures Decode([(DisplayModeKey, MultiPageName)])
            == Settings(MultiPage, "", [], DefaultColumnsCount, DefaultColumnsWidth)
  {
    var q: Query := [(DisplayModeKey, MultiPageName)];
    KeysDistinct();
    assert q[1..] == [];
    assert GetAll(q, DisplayModeKey) == [MultiPageName];
    assert GetAll(q, UrlsKey) == [];
  }

  /** Editing the third column of an empty address list leaves two holes. */
  lemma EditLeavesHoles()
    ensures Assign(Settings(MultiPage, "", [], DefaultColumnsCount, DefaultColumnsWidth), Indexed(2), "example.com")
            == Settings(MultiPage, "", [None, None, Some("https://example.com")], DefaultColumnsCount, DefaultColumnsWidth)
  {
    assert !(HttpPrefix <= "example.com") by {
      assert "example.com"[0] != HttpPrefix[0];
    }
    assert HttpsScheme + "example.com" == "https://example.com";
    var r := SetSlot([], 2, "https://example.com");
    assert |r| == 3 && r[0] == None && r[1] == None && r[2] == Some("https://example.com");
  }

  /** The holes are skipped when written, so the one address moves to the front. */
  lemma {:induction false} HolesSkipped(s: Settings, u: string)
    requires s.mode == MultiPage && s.urls == [None, None, Some(u)] && u != ""
    ensures Shown(s, 0) == None && Shown(s, 2) == Some(u)
    ensures Shown(Decode(EncodeAsWritten(s)), 0) == Some(u)
    ensures Shown(Decode(EncodeAsWritten(s)), 2) == None
  {
    PresentSkipsHoles(u);
    DecodeEncodeAsWritten(s);
    var d := Decode(EncodeAsWritten(s));
    assert d.mode == MultiPage;
    assert |d.urls| == 1 && d.urls[0] == Some(u);
    assert ColumnUrl(d, 0) == Some(u) && ColumnUrl(d, 2) == None;
    assert ColumnUrl(s, 0) == None && ColumnUrl(s, 2) == Some(u);
  }

  lemma PresentSkipsHoles(u: string)
    ensures Present([None, None, Some(u)]) == [u]
  {
    var a: seq<Option<string>> := [None, None, Some(u)];
    assert a[1..] == [None, Some(u)];
    assert a[1..][1..] == [Some(u)];
    assert a[1..][1..][1..] == [];
  }
}

=== FILE: app_state.dfy ===
/** The persistent part of the application state (`State` in src/main.ts):
    display mode, address(es) and column geometry, and the choice of address
    for a column that both the view and the iframe reload use. */
module AppState {
  import opened Base

  /** `displayMode`. The query string is cast, not checked, so any other
      non-empty text survives as `Unrecognised`; every test in the program
      compares against the two known names, so such a mode is neither. */
  datatype DisplayMode = SinglePage | MultiPage | Unrecognised(name: string)

  const SinglePageName := "single-page"
  const MultiPageName := "multi-page"

  const DefaultColumnsCount := 5
  const MinColumnsCount := 1
  const MaxColumnsCount := 10
  const DefaultColumnsWidth := 375
  const MinColumnsWidth := 280
  const MaxColumnsWidth := 4000

  /** The text the mode is written as. */
  function ModeName(m: DisplayMode): string {
    match m
    case SinglePage => SinglePageName
    case MultiPage => MultiPageName
    case Unrecognised(name) => name
  }

  /** A mode as decoding can produce it: an unrecognised name is never empty
      and never one of the two known names. */
  predicate WellFormedMode(m: DisplayMode) {
    m.Unrecognised? ==> m.name != "" && m.name != SinglePageName && m.name != MultiPageName
  }

  /** `urls` is a JavaScript array that may be sparse: `None` is a hole. */
  datatype Settings = Settings(
    mode: DisplayMode,
    url: string,
    urls: seq<Option<string>>,
    columnsCount: int,
    columnsWidth: int)

  /** No slot of the array is a hole. */
  predicate NoHoles(urls: seq<Option<string>>) {
    forall i :: 0 <= i < |urls| ==> urls[i].Some?
  }

  /** `urls[i]` on a JavaScript array: `undefined` past the end and at a hole. */
  function Entry(urls: seq<Option<string>>, i: nat): (u: Option<string>)
    ensures u.Some? <==> i < |urls| && urls[i].Some?
    ensures u.Some? ==> u == urls[i]
  {
    if i < |urls| then urls[i] else None
  }

  /** The address the view gives column `index` (src/main.ts:269): the one
      page in single-page mode, the column's own entry otherwise. */
  function ColumnUrl(s: Settings, index: nat): (u: Option<string>)
    ensures s.mode == SinglePage ==> u == Some(s.url)
    ensures s.mode != SinglePage ==> (u.Some? <==> index < |s.urls| && s.urls[index].Some?)
    ensures s.mode != SinglePage && u.Some? ==> u == s.urls[index]
  {
    if s.mode == SinglePage then Some(s.url) else Entry(s.urls, index)
  }

  /** The address of the iframe the view renders in column `index`: an iframe
      exists only for a truthy (defined, non-empty) address. */
  function Shown(s: Settings, index: nat): (u: Option<string>)
    ensures u.Some? <==> ColumnUrl(s, index).Some? && ColumnUrl(s, index).value != ""
    ensures u.Some? ==> u == ColumnUrl(s, index)
  {
    match ColumnUrl(s, index)
    case Some(a) => if a != "" then Some(a) else None
    case None => None
  }
}

=== FILE: base.dfy ===
/** Small shared vocabulary: an optional value, used for JavaScript's
    `null`/`undefined`/`NaN` results, and the integer maximum used by clamps. */
module Base {

  datatype Option<+T> = None | Some(value: T) {

    /** The wrapped value, or `default` when there is none. */
    function GetOr(default: T): T {
      match this
      case Some(v) => v
      case None => default
    }
  }

  function Max(a: int, b: int): (m: int)
    ensures m >= a && m >= b
    ensures m == a || m == b
  {
    if a >= b then a else b
  }
}

=== FILE: history_codec.dfy ===
/** The query-string codec: the boot-time reading of the page address
    (src/main.ts:66-75) and `updateHistory` (src/main.ts:145-161). */
module HistoryCodec {
  import opened Base
  import opened JsNumber
  import opened SearchParams
  import opened AppState

  const DisplayModeKey := "displayMode"
  const UrlKey := "url"
  const UrlsKey := "urls"
  const ColumnsCountKey := "columnsCount"
  const ColumnsWidthKey := "columnsWidth"

  /** `getUrlSearchParam(key)`: the first value, with a missing key read as empty text. */
  function Param(q: Query, key: string): (v: string)
    ensures HasName(q, key) ==> v == GetAll(q, key)[0]
    ensures !HasName(q, key) ==> v == ""
  {
    Get(q, key).GetOr("")
  }

  /** `raw as DisplayMode || DEFAULT_DISPLAY_MODE`: empty text is the default,
      any other text is kept as it is. */
  function DecodeMode(raw: string): (m: DisplayMode)
    ensures WellFormedMode(m)
    ensures raw == "" ==> m == SinglePage
    ensures raw != "" ==> ModeName(m) == raw
  {
    if raw == "" || raw == SinglePageName then SinglePage
    else if raw == MultiPageName then MultiPage
    else Unrecognised(raw)
  }

  /** `parseInt(raw) || fallback`: both `NaN` and `0` are falsy, so either gives
      the fallback; every other value is kept, with no range check. */
  function ParseOr(raw: string, fallback: int): (n: int)
    ensures fallback != 0 ==> n != 0
    ensures n != fallback ==> ParseInt(raw) == Some(n)
    ensures ParseInt(raw).Some? && ParseInt(raw).value != 0 ==> n == ParseInt(raw).value
  {
    match ParseInt(raw)
    case Some(v) => if v != 0 then v else fallback
    case None => fallback
  }

  /** The settings the application boots with, read from the query. */
  function Decode(q: Query): (s: Settings)
    ensures WellFormedMode(s.mode)
    ensures s.columnsCount != 0 && s.columnsWidth != 0
    // the mode: written with the text of the first `displayMode` value, or
    // single-page when that is missing or empty
    ensures !HasName(q, DisplayModeKey) ==> s.mode == SinglePage
    ensures Param(q, DisplayModeKey) == "" ==> s.mode == SinglePage
    ensures Param(q, DisplayModeKey) != "" ==> ModeName(s.mode) == Param(q, DisplayModeKey)
    // the single page's address: the first `url` value, or empty text
    ensures s.url == Param(q, UrlKey)
    // the geometry: the parsed first value unless it is NaN or 0, else the default
    ensures !HasName(q, ColumnsCountKey) ==> s.columnsCount == DefaultColumnsCount
    ensures !HasName(q, ColumnsWidthKey) ==> s.columnsWidth == DefaultColumnsWidth
    ensures var p := ParseInt(Param(q, ColumnsCountKey));
            s.columnsCount == if p.Some? && p.value != 0 then p.value else DefaultColumnsCount
    ensures var p := ParseInt(Param(q, ColumnsWidthKey));
            s.columnsWidth == if p.Some? && p.value != 0 then p.value else DefaultColumnsWidth
    // every `urls` value, in order
    ensures |s.urls| == |GetAll(q, UrlsKey)|
    ensures NoHoles(s.urls)
    ensures forall i :: 0 <= i < |s.urls| ==> s.urls[i] == Some(GetAll(q, UrlsKey)[i])
  {
    var all := GetAll(q, UrlsKey);
    Settings(
      DecodeMode(Param(q, DisplayModeKey)),
      Param(q, UrlKey),
      seq(|all|, i requires 0 <= i < |all| => Some(all[i])),
      ParseOr(Param(q, ColumnsCountKey), DefaultColumnsCount),
      ParseOr(Param(q, ColumnsWidthKey), DefaultColumnsWidth))
  }

  lemma KeysDistinct()
    ensures DisplayModeKey != UrlKey && DisplayModeKey != UrlsKey
    ensures DisplayModeKey != ColumnsCountKey && DisplayModeKey != ColumnsWidthKey
    ensures UrlKey != UrlsKey && UrlKey != ColumnsCountKey && UrlKey != ColumnsWidthKey
    ensures UrlsKey != ColumnsCountKey && UrlsKey != ColumnsWidthKey
    ensures ColumnsCountKey != ColumnsWidthKey
  {
    assert ColumnsCountKey[7] != ColumnsWidthKey[7];
  }

  /** No pair of `q` carries either of the two geometry keys. */
  predicate WithoutGeometry(q: Query) {
    !HasName(q, ColumnsCountKey) && !HasName(q, ColumnsWidthKey)
  }

  /** The pairs `updateHistory` writes, given the values it writes under `urls`. */
  function Serialize(s: Settings, urlValues: seq<string>): (q: Query)
    ensures q == AddressPairs(s, urlValues)
                 + [(ColumnsCountKey, IntToString(s.columnsCount)),
                    (ColumnsWidthKey, IntToString(s.columnsWidth))]
  {
    var q1 := AddressPairs(s, urlValues);
    var q2 := Set(q1, ColumnsCountKey, IntToString(s.columnsCount));
    KeysDistinct();
    assert !HasName(q2, ColumnsWidthKey);
    Set(q2, ColumnsWidthKey, IntToString(s.columnsWidth))
  }

  /** The first part of what `updateHistory` writes: the mode, then the one
      address in single-page mode or one `urls` pair per value otherwise. */
  function AddressPairs(s: Settings, urlValues: seq<string>): (q: Query)
    ensures q == [(DisplayModeKey, ModeName(s.mode))]
                 + (if s.mode == SinglePage then [(UrlKey, s.url)] else Pairs(UrlsKey, urlValues))
    ensures WithoutGeometry(q)
  {
    KeysDistinct();
    var q0 := Set([], DisplayModeKey, ModeName(s.mode));
    assert GetAll(q0, ColumnsCountKey) == [] && GetAll(q0, ColumnsWidthKey) == [];
    GetAllConcat(q0, Pairs(UrlsKey, urlValues), ColumnsCountKey);
    GetAllPairs(UrlsKey, urlValues, ColumnsCountKey);
    GetAllConcat(q0, Pairs(UrlsKey, urlValues), ColumnsWidthKey);
    GetAllPairs(UrlsKey, urlValues, ColumnsWidthKey);
    if s.mode == SinglePage then Set(q0, UrlKey, s.url) else AppendEach(q0, UrlsKey, urlValues)
  }

  /** The defined entries of a sparse array, in order: what `forEach` visits. */
  function Present(urls: seq<Option<string>>): (vs: seq<string>)
    ensures |vs| <= |urls|
    ensures forall i :: 0 <= i < |vs| ==> Some(vs[i]) in urls
    ensures forall i :: 0 <= i < |urls| && urls[i].Some? ==> urls[i].value in vs
    ensures NoHoles(urls) ==> |vs| == |urls|
    ensures NoHoles(urls) ==> forall i :: 0 <= i < |urls| ==> urls[i] == Some(vs[i])
  {
    if urls == [] then []
    else (if urls[0].Some? then [urls[0].value] else []) + Present(urls[1..])
  }

  /** `forEach` over one slot: a hole yields nothing, an entry yields its value. */
  lemma PresentSlot(x: Option<string>)
    ensures Present([x]) == if x.Some? then [x.value] else []
  {
    assert [x][1..] == [];
  }

  /** `forEach` visits the slots in index order, so the entries of a
      concatenation are those of the first part followed by those of the second. */
  lemma {:induction false} PresentConcat(a: seq<Option<string>>, b: seq<Option<string>>)
    ensures Present(a + b) == Present(a) + Present(b)
  {
    if a == [] {
      assert a + b == b;
    } else {
      assert (a + b)[1..] == a[1..] + b;
      PresentConcat(a[1..], b);
    }
  }

  /** Every slot of a sparse array, a hole read as empty text. */
  function Filled(urls: seq<Option<string>>): (vs: seq<string>)
    ensures |vs| == |urls|
    ensures forall i :: 0 <= i < |urls| ==> vs[i] == urls[i].GetOr("")
  {
    seq(|urls|, i requires 0 <= i < |urls| => urls[i].GetOr(""))
  }

  /** `updateHistory` as written: `forEach` skips the holes of `urls`, so only
      the defined entries are written, packed together. */
  function EncodeAsWritten(s: Settings): (q: Query)
    ensures Param(q, DisplayModeKey) == ModeName(s.mode)
    ensures Param(q, ColumnsCountKey) == IntToString(s.columnsCount)
    ensures Param(q, ColumnsWidthKey) == IntToString(s.columnsWidth)
    ensures s.mode == SinglePage ==> Param(q, UrlKey) == s.url && GetAll(q, UrlsKey) == []
    ensures s.mode != SinglePage ==> Param(q, UrlKey) == "" && GetAll(q, UrlsKey) == Present(s.urls)
  {
    ParamsOfSerialize(s, Present(s.urls));
    Serialize(s, Present(s.urls))
  }

  /** `updateHistory` with one `urls` pair per slot, a hole written as empty
      text, so that every entry keeps its column. */
  function Encode(s: Settings): (q: Query)
    ensures Param(q, DisplayModeKey) == ModeName(s.mode)
    ensures Param(q, ColumnsCountKey) == IntToString(s.columnsCount)
    ensures Param(q, ColumnsWidthKey) == IntToString(s.columnsWidth)
    ensures s.mode == SinglePage ==> Param(q, UrlKey) == s.url && GetAll(q, UrlsKey) == []
    ensures s.mode != SinglePage ==> Param(q, UrlKey) == ""
    ensures s.mode != SinglePage ==> |GetAll(q, UrlsKey)| == |s.urls|
    ensures s.mode != SinglePage ==>
              forall i :: 0 <= i < |s.urls| ==> GetAll(q, UrlsKey)[i] == s.urls[i].GetOr("")
  {
    ParamsOfSerialize(s, Filled(s.urls));
    Serialize(s, Filled(s.urls))
  }

  /** The values a serialized query holds under each name. */
  lemma GetAllSerialize(s: Settings, vs: seq<string>, name: string)
    ensures GetAll(Serialize(s, vs), name) ==
              (if name == DisplayModeKey then [ModeName(s.mode)] else [])
              + (if s.mode == SinglePage then (if name == UrlKey then [s.url] else [])
                 else (if name == UrlsKey then vs else []))
              + (if name == ColumnsCountKey then [IntToString(s.columnsCount)] else [])
              + (if name == ColumnsWidthKey then [IntToString(s.columnsWidth)] else [])
  {
    var head: Query := [(DisplayModeKey, ModeName(s.mode))];
    var mid: Query := if s.mode == SinglePage then [(UrlKey, s.url)] else Pairs(UrlsKey, vs);
    var count: Query := [(ColumnsCountKey, IntToString(s.columnsCount))];
    var width: Query := [(ColumnsWidthKey, IntToString(s.columnsWidth))];
    assert Serialize(s, vs) == head + mid + count + width;
    GetAllConcat(head + mid + count, width, name);
    GetAllConcat(head + mid, count, name);
    GetAllConcat(head, mid, name);
    GetAllSingle(DisplayModeKey, ModeName(s.mode), name);
    GetAllSingle(ColumnsCountKey, IntToString(s.columnsCount), name);
    GetAllSingle(ColumnsWidthKey, IntToString(s.columnsWidth), name);
    if s.mode == SinglePage {
      GetAllSingle(UrlKey, s.url, name);
    } else {
      GetAllPairs(UrlsKey, vs, name);
    }
  }

  /** What each key reads as in a serialized query. */
  lemma ParamsOfSerialize(s: Settings, vs: seq<string>)
    ensures Param(Serialize(s, vs), DisplayModeKey) == ModeName(s.mode)
    ensures Param(Serialize(s, vs), ColumnsCountKey) == IntToString(s.columnsCount)
    ensures Param(Serialize(s, vs), ColumnsWidthKey) == IntToString(s.columnsWidth)
    ensures s.mode == SinglePage ==>
              Param(Serialize(s, vs), UrlKey) == s.url && GetAll(Serialize(s, vs), UrlsKey) == []
    ensures s.mode != SinglePage ==>
              Param(Serialize(s, vs), UrlKey) == "" && GetAll(Serialize(s, vs), UrlsKey) == vs
  {
    var q := Serialize(s, vs);
    KeysDistinct();
    assert GetAll(q, DisplayModeKey) == [ModeName(s.mode)] by {
      GetAllSerialize(s, vs, DisplayModeKey);
    }
    assert GetAll(q, ColumnsCountKey) == [IntToString(s.columnsCount)] by {
      GetAllSerialize(s, vs, ColumnsCountKey);
    }
    assert GetAll(q, ColumnsWidthKey) == [IntToString(s.columnsWidth)] by {
      GetAllSerialize(s, vs, ColumnsWidthKey);
    }
    assert GetAll(q, UrlKey) == (if s.mode == SinglePage then [s.url] else []) by {
      GetAllSerialize(s, vs, UrlKey);
    }
    assert GetAll(q, UrlsKey) == (if s.mode == SinglePage then [] else vs) by {
      GetAllSerialize(s, vs, UrlsKey);
    }
  }

  /** Decoding what `updateHistory` wrote restores the mode, the column count
      and width (when they are not zero, the falsy value that decoding replaces
      by the default), the single page's address in single-page mode and the
      column addresses in the other modes. */
  lemma {:induction false} DecodeEncode(s: Settings)
    requires WellFormedMode(s.mode)
    requires s.columnsCount != 0 && s.columnsWidth != 0
    ensures Decode(Encode(s)).mode == s.mode
    ensures Decode(Encode(s)).columnsCount == s.columnsCount
    ensures Decode(Encode(s)).columnsWidth == s.columnsWidth
    ensures s.mode == SinglePage ==> Decode(Encode(s)).url == s.url && Decode(Encode(s)).urls == []
    ensures s.mode != SinglePage ==> Decode(Encode(s)).url == ""
    ensures s.mode != SinglePage ==> |Decode(Encode(s)).urls| == |s.urls|
    ensures s.mode != SinglePage ==>
              forall i :: 0 <= i < |s.urls| ==> Decode(Encode(s)).urls[i] == Some(s.urls[i].GetOr(""))
  {
    ParamsOfSerialize(s, Filled(s.urls));
    ParseIntRoundTrip(s.columnsCount);
    ParseIntRoundTrip(s.columnsWidth);
  }

  /** After a reload from the written history every column shows the iframe it
      showed before (for a non-zero count and width). */
  lemma {:induction false} ReloadKeepsColumns(s: Settings, i: nat)
    requires WellFormedMode(s.mode)
    requires s.columnsCount != 0 && s.columnsWidth != 0
    ensures Shown(Decode(Encode(s)), i) == Shown(s, i)
  {
    DecodeEncode(s);
    ShownWithHolesFilled(Decode(Encode(s)), s, i);
  }

  /** Settings whose entries are those of `s` with each hole made empty text
      show the same iframes as `s`. */
  lemma ShownWithHolesFilled(d: Settings, s: Settings, i: nat)
    requires d.mode == s.mode
    requires s.mode == SinglePage ==> d.url == s.url
    requires s.mode != SinglePage ==> |d.urls| == |s.urls|
    requires s.mode != SinglePage ==> forall j :: 0 <= j < |s.urls| ==> d.urls[j] == Some(s.urls[j].GetOr(""))
    ensures Shown(d, i) == Shown(s, i)
  {
    if s.mode != SinglePage && i < |s.urls| {
      assert d.urls[i] == Some(s.urls[i].GetOr(""));
    }
  }

  /** Outside single-page mode, decoding the history as `updateHistory` writes
      it gives the defined entries of `urls` packed to the front: each hole
      shifts every later address one column to the left. */
  lemma {:induction false} DecodeEncodeAsWritten(s: Settings)
    requires s.mode != SinglePage
    ensures WellFormedMode(s.mode) ==> Decode(EncodeAsWritten(s)).mode == s.mode
    ensures |Decode(EncodeAsWritten(s)).urls| == |Present(s.urls)|
    ensures forall i :: 0 <= i < |Present(s.urls)| ==>
              Decode(EncodeAsWritten(s)).urls[i] == Some(Present(s.urls)[i])
  {
    ParamsOfSerialize(s, Present(s.urls));
  }

  /** In single-page mode, or with no holes, the written history does not
      depend on the correction. */
  lemma EncodeAsWrittenWithoutHoles(s: Settings)
    ensures s.mode == SinglePage || NoHoles(s.urls) ==> EncodeAsWritten(s) == Encode(s)
  {
    if s.mode != SinglePage && NoHoles(s.urls) {
      assert Present(s.urls) == Filled(s.urls);
    }
  }
}

=== FILE: iframe_reload.dfy ===
/** The iframe reload detector (`onIframeLoad`, src/main.ts:230-246): the
    first `load` of a frame is only recorded, the second one forgets the frame
    and assigns its address again. Frame ids are opaque values (uuids). */
module IframeReload {
  import opened Base
  import opened AppState

  type FrameId = string

  /** An iframe as the handler sees it; `None` stands for an undefined `src`. */
  datatype Frame = Frame(id: FrameId, src: Option<string>)

  /** The recorded ids (`loadedIframeIds`) and the frame after the handler ran. */
  datatype LoadOutcome = LoadOutcome(loaded: set<FrameId>, frame: Frame)

  /** The address the handler assigns (src/main.ts:244): the one page in
      single-page mode, otherwise the entry at `index || 0`, so a `null`
      index reads column 0. */
  function HandlerUrl(s: Settings, index: Option<nat>): (u: Option<string>)
    ensures s.mode == SinglePage ==> u == Some(s.url)
    ensures s.mode != SinglePage ==>
              (u.Some? <==> index.GetOr(0) < |s.urls| && s.urls[index.GetOr(0)].Some?)
    ensures s.mode != SinglePage && u.Some? ==> u == s.urls[index.GetOr(0)]
  {
    if s.mode == SinglePage then Some(s.url) else Entry(s.urls, index.GetOr(0))
  }

  /** A `load` event of `frame`, rendered for column `index`. */
  function OnIframeLoad(s: Settings, loaded: set<FrameId>, index: Option<nat>, frame: Frame): (r: LoadOutcome)
    ensures r.frame.id == frame.id
    ensures r.loaded - {frame.id} == loaded - {frame.id}
    // no address: nothing happens
    ensures frame.src.None? ==> r == LoadOutcome(loaded, frame)
    // first load: recorded, the address untouched
    ensures frame.src.Some? && frame.id !in loaded ==>
              frame.id in r.loaded && r.frame == frame
    // second load: forgotten, and the column's current address assigned
    ensures frame.src.Some? && frame.id in loaded ==>
              frame.id !in r.loaded && r.frame.src == HandlerUrl(s, index)
  {
    if frame.src.None? then LoadOutcome(loaded, frame)
    else if frame.id !in loaded then LoadOutcome(loaded + {frame.id}, frame)
    else LoadOutcome(loaded - {frame.id}, frame.(src := HandlerUrl(s, index)))
  }

  /** The address the handler assigns is the one the view rendered the frame
      with: the view passes its own column number, and a `null` index
      stands for the first column. */
  lemma ReassignsViewAddress(s: Settings, i: nat)
    ensures HandlerUrl(s, Some(i)) == ColumnUrl(s, i)
    ensures HandlerUrl(s, None) == ColumnUrl(s, 0)
  {
  }

  /** Two loads of a fresh frame: the first changes no address, the second
      assigns the column's address and leaves the recorded ids as they were. */
  lemma TwoLoadsReassignOnce(s: Settings, loaded: set<FrameId>, index: Option<nat>, frame: Frame)
    requires frame.src.Some? && frame.id !in loaded
    ensures var first := OnIframeLoad(s, loaded, index, frame);
            var second := OnIframeLoad(s, first.loaded, index, first.frame);
            && first.frame == frame
            && second.loaded == loaded
            && second.frame == frame.(src := HandlerUrl(s, index))
  {
  }

  /** `n` consecutive loads of one frame, with the number of addresses assigned. */
  function Loads(s: Settings, loaded: set<FrameId>, index: Option<nat>, frame: Frame, n: nat): (r: (LoadOutcome, nat))
    ensures r.0.frame.id == frame.id
    ensures r.1 <= n
    ensures r.0.loaded - {frame.id} == loaded - {frame.id}
    ensures frame.src.None? ==> r == (LoadOutcome(loaded, frame), 0)
    decreases n
  {
    if n == 0 then (LoadOutcome(loaded, frame), 0)
    else
      var step := OnIframeLoad(s, loaded, index, frame);
      var rest := Loads(s, step.loaded, index, step.frame, n - 1);
      (rest.0, rest.1 + if frame.id in loaded && frame.src.Some? then 1 else 0)
  }

  /** While the column has an address, loads alternate between recording and
      reassigning: after `n` loads from an unrecorded frame, `n / 2` addresses
      were assigned and the frame is recorded exactly when `n` is odd. */
  lemma {:induction false} LoadsAlternate(s: Settings, loaded: set<FrameId>, index: Option<nat>, frame: Frame, n: nat)
    requires frame.src.Some? && HandlerUrl(s, index).Some?
    requires frame.id !in loaded
    ensures Loads(s, loaded, index, frame, n).1 == n / 2
    ensures (frame.id in Loads(s, loaded, index, frame, n).0.loaded) <==> n % 2 == 1
    ensures Loads(s, loaded, index, frame, n).0.loaded - {frame.id} == loaded - {frame.id}
    decreases n
  {
    if n >= 2 {
      var first := OnIframeLoad(s, loaded, index, frame);
      var second := OnIframeLoad(s, first.loaded, index, first.frame);
      assert Loads(s, loaded, index, frame, n)
             == (Loads(s, second.loaded, index, second.frame, n - 2).0,
                 Loads(s, second.loaded, index, second.frame, n - 2).1 + 1);
      LoadsAlternate(s, second.loaded, index, second.frame, n - 2);
    }
  }
}

=== FILE: js_number.dfy ===
/** The two number/string conversions the query string relies on:
    the global `parseInt` (ECMAScript section 19.2.5, no radix argument) and
    the decimal `toString` of an integral Number. */
module JsNumber {
  import opened Base

  /** The ECMAScript StrWhiteSpaceChar set: WhiteSpace and LineTerminator code points. */
  predicate IsWhiteSpace(c: char) {
    || c == '\t' || c == '\n' || c == '\U{000B}' || c == '\U{000C}' || c == '\r' || c == ' '
    || c == '\U{00A0}' || c == '\U{FEFF}' || c == '\U{2028}' || c == '\U{2029}'
    || c == '\U{1680}' || ('\U{2000}' <= c <= '\U{200A}')
    || c == '\U{202F}' || c == '\U{205F}' || c == '\U{3000}'
  }

  /** Drops the leading white space, as parseInt's first step does. */
  function TrimStart(s: string): (r: string)
    ensures |r| <= |s| && r == s[|s| - |r|..]
    ensures r == [] || !IsWhiteSpace(r[0])
    ensures forall i :: 0 <= i < |s| - |r| ==> IsWhiteSpace(s[i])
  {
    if |s| > 0 && IsWhiteSpace(s[0]) then TrimStart(s[1..]) else s
  }

  /** The value of a digit in radix up to 36; 36 for a character that is no digit at all. */
  function DigitValue(c: char): (v: nat)
    ensures v <= 36
  {
    if '0' <= c <= '9' then c as int - '0' as int
    else if 'a' <= c <= 'z' then c as int - 'a' as int + 10
    else if 'A' <= c <= 'Z' then c as int - 'A' as int + 10
    else 36
  }

  predicate IsDigit(c: char, radix: nat) {
    DigitValue(c) < radix
  }

  /** Length of the longest prefix of `s` made of radix digits. */
  function DigitRun(s: string, radix: nat): (n: nat)
    ensures n <= |s|
    ensures forall i :: 0 <= i < n ==> IsDigit(s[i], radix)
    ensures n < |s| ==> !IsDigit(s[n], radix)
  {
    if |s| > 0 && IsDigit(s[0], radix) then 1 + DigitRun(s[1..], radix) else 0
  }

  /** Positional value of a digit string, most significant digit first. */
  function DigitsValue(s: string, radix: nat): nat {
    if |s| == 0 then 0 else DigitsValue(s[..|s| - 1], radix) * radix + DigitValue(s[|s| - 1])
  }

  /** `parseInt(s)`: skip white space, take one optional sign, then read the
      magnitude. No digit at all is `NaN`, here `None`. */
  function ParseInt(s: string): (r: Option<int>)
    // after the white space, text that starts with neither a sign nor a
    // decimal digit is NaN
    ensures var t := TrimStart(s);
            t == [] || (t[0] != '-' && t[0] != '+' && !IsDigit(t[0], 10)) ==> r.None?
    // a decimal digit that does not open a `0x` prefix always gives a number
    ensures var t := TrimStart(s);
            |t| > 0 && IsDigit(t[0], 10) && !HexPrefixed(t) ==> r.Some? && r.value >= 0
    // only a minus sign gives a negative number
    ensures r.Some? && r.value < 0 ==> TrimStart(s)[0] == '-'
  {
    SignedShape(TrimStart(s));
    ParseSigned(TrimStart(s))
  }

  /** The text opens with `0x` or `0X`. */
  predicate HexPrefixed(u: string) {
    |u| >= 2 && u[0] == '0' && (u[1] == 'x' || u[1] == 'X')
  }

  /** parseInt after the white space: one optional sign, then the magnitude. */
  function ParseSigned(t: string): Option<int> {
    var negative := |t| > 0 && t[0] == '-';
    var u := if |t| > 0 && (t[0] == '-' || t[0] == '+') then t[1..] else t;
    var magnitude: Option<int> := ParseMagnitude(u);
    match magnitude
    case None => None
    case Some(m) => if negative then Some(-m) else Some(m)
  }

  /** The unsigned part of parseInt: radix 16 after a `0x`/`0X` prefix, radix 10
      otherwise, reading the longest digit prefix. */
  function ParseMagnitude(u: string): Option<nat> {
    var hex := HexPrefixed(u);
    var radix := if hex then 16 else 10;
    var v := if hex then u[2..] else u;
    var n := DigitRun(v, radix);
    if n == 0 then None else Some(DigitsValue(v[..n], radix))
  }

  /** What the first character after the white space decides. */
  lemma SignedShape(t: string)
    ensures t == [] || (t[0] != '-' && t[0] != '+' && !IsDigit(t[0], 10)) ==> ParseSigned(t).None?
    ensures |t| > 0 && IsDigit(t[0], 10) && !HexPrefixed(t) ==> ParseSigned(t).Some? && ParseSigned(t).value >= 0
    ensures ParseSigned(t).Some? && ParseSigned(t).value < 0 ==> t[0] == '-'
  {
  }

  function DecimalDigit(d: nat): (c: char)
    requires d < 10
    ensures '0' <= c <= '9' && DigitValue(c) == d
  {
    ('0' as int + d) as char
  }

  /** Decimal representation of a natural number, without leading zeros. */
  function NatToString(n: nat): (r: string)
    ensures |r| > 0
    ensures forall i :: 0 <= i < |r| ==> '0' <= r[i] <= '9'
    ensures r[0] == '0' ==> n == 0 && |r| == 1
  {
    if n < 10 then [DecimalDigit(n)] else NatToString(n / 10) + [DecimalDigit(n % 10)]
  }

  /** `n.toString()` for an integral Number. */
  function IntToString(n: int): (r: string)
    ensures |r| > 0 && !IsWhiteSpace(r[0])
    ensures n < 0 <==> r[0] == '-'
    ensures n >= 0 ==> '0' <= r[0] <= '9'
    ensures forall i :: 1 <= i < |r| ==> '0' <= r[i] <= '9'
  {
    if n < 0 then "-" + NatToString(-n) else NatToString(n)
  }

  /** Reading back the digits of `NatToString(n)` gives `n`. */
  lemma {:induction false} NatToStringValue(n: nat)
    ensures DigitsValue(NatToString(n), 10) == n
  {
    var s := NatToString(n);
    if n < 10 {
      assert s[..|s| - 1] == [];
    } else {
      assert s[..|s| - 1] == NatToString(n / 10);
      NatToStringValue(n / 10);
    }
  }

  /** The digit run of a decimal representation followed by `rest` stops exactly
      where the representation ends, provided `rest` does not start with a digit. */
  lemma {:induction false} DigitRunOfDigits(s: string, rest: string)
    requires forall i :: 0 <= i < |s| ==> '0' <= s[i] <= '9'
    requires rest == [] || !IsDigit(rest[0], 10)
    ensures DigitRun(s + rest, 10) == |s|
  {
    if |s| == 0 {
      assert s + rest == rest;
    } else {
      var t := s + rest;
      assert t[0] == s[0] && IsDigit(t[0], 10);
      assert t[1..] == s[1..] + rest;
      DigitRunOfDigits(s[1..], rest);
      assert DigitRun(t, 10) == 1 + DigitRun(t[1..], 10);
    }
  }

  /** parseInt reads back what toString wrote, and stops at the first character
      after the number that is not a digit (`parseInt("375px") == 375`); only `0`
      followed by `x` would be re-read as a hexadecimal prefix. */
  lemma {:induction false} ParseIntOfIntToString(n: int, rest: string)
    requires rest == [] || !IsDigit(rest[0], 10)
    requires n == 0 ==> rest == [] || (rest[0] != 'x' && rest[0] != 'X')
    ensures ParseInt(IntToString(n) + rest) == Some(n)
  {
    var s := IntToString(n) + rest;
    assert s[0] == IntToString(n)[0];
    TrimStartKeeps(s);
    assert ParseInt(s) == ParseSigned(s);
    if n < 0 {
      ParseSignedNegative(n, rest);
    } else {
      ParseSignedNonNegative(n, rest);
    }
  }

  lemma TrimStartKeeps(s: string)
    requires |s| > 0 && !IsWhiteSpace(s[0])
    ensures TrimStart(s) == s
  {
  }

  lemma ParseSignedNegative(n: int, rest: string)
    requires n < 0
    requires rest == [] || !IsDigit(rest[0], 10)
    ensures ParseSigned(IntToString(n) + rest) == Some(n)
  {
    var u := NatToString(-n) + rest;
    assert ParseMagnitude(u) == Some(-n) by {
      ParseMagnitudeOfDigits(-n, rest);
    }
    assert ParseSigned("-" + u) == Some(n) by {
      ParseSignedMinus(u, -n);
    }
    NegativeSpelling(n, rest);
  }

  lemma NegativeSpelling(n: int, rest: string)
    requires n < 0
    ensures IntToString(n) + rest == "-" + (NatToString(-n) + rest)
  {
  }

  lemma ParseSignedMinus(u: string, m: int)
    requires ParseMagnitude(u) == Some(m)
    ensures ParseSigned("-" + u) == Some(-m)
  {
    var t := "-" + u;
    assert t[0] == '-' && t[1..] == u;
  }

  lemma ParseSignedNonNegative(n: int, rest: string)
    requires n >= 0
    requires rest == [] || !IsDigit(rest[0], 10)
    requires n == 0 ==> rest == [] || (rest[0] != 'x' && rest[0] != 'X')
    ensures ParseSigned(IntToString(n) + rest) == Some(n)
  {
    var digits := NatToString(n);
    assert IntToString(n) == digits;
    var t := digits + rest;
    assert t[0] == digits[0];
    assert t[0] != '-' && t[0] != '+';
    ParseMagnitudeOfDigits(n, rest);
  }

  lemma ParseMagnitudeOfDigits(a: nat, rest: string)
    requires rest == [] || !IsDigit(rest[0], 10)
    requires a == 0 ==> rest == [] || (rest[0] != 'x' && rest[0] != 'X')
    ensures ParseMagnitude(NatToString(a) + rest) == Some(a)
  {
    var digits := NatToString(a);
    var u := digits + rest;
    assert !(|u| >= 2 && u[0] == '0' && (u[1] == 'x' || u[1] == 'X')) by {
      if |u| >= 2 && u[0] == '0' {
        assert |digits| == 1;
        assert u[1] == rest[0];
      }
    }
    DigitRunOfDigits(digits, rest);
    assert u[..|digits|] == digits;
    NatToStringValue(a);
  }

  lemma ParseIntRoundTrip(n: int)
    ensures ParseInt(IntToString(n)) == Some(n)
  {
    ParseIntOfIntToString(n, []);
    assert IntToString(n) + [] == IntToString(n);
  }

  /** Leading white space never changes what parseInt reads. */
  lemma {:induction false} ParseIntSkipsWhiteSpace(ws: string, s: string)
    requires forall i :: 0 <= i < |ws| ==> IsWhiteSpace(ws[i])
    ensures ParseInt(ws + s) == ParseInt(s)
  {
    TrimStartSkips(ws, s);
  }

  lemma {:induction false} TrimStartSkips(ws: string, s: string)
    requires forall i :: 0 <= i < |ws| ==> IsWhiteSpace(ws[i])
    ensures TrimStart(ws + s) == TrimStart(s)
  {
    if |ws| == 0 {
      assert ws + s == s;
    } else {
      assert (ws + s)[1..] == ws[1..] + s;
      TrimStartSkips(ws[1..], s);
    }
  }
}

=== FILE: scroll_sync.dfy ===
/** The scroll synchroniser (`scroll`, src/main.ts:92-143). The DOM columns
    become their sequence of scroll offsets, the column height is read with
    every event, and the 100 ms timer that clears the re-entrancy guard is an
    explicit event of its own. */
module ScrollSync {
  import opened Base
  import opened AppState

  /** The column offsets in order, the active source index
      (`scrollingSourceIndex`) and whether the timer that clears it is pending. */
  datatype Sync = Sync(offsets: seq<int>, source: Option<nat>, timerArmed: bool)

  /** The guard is set exactly while its timer is pending, and names a column. */
  predicate Valid(s: Sync) {
    && (s.source.Some? <==> s.timerArmed)
    && (s.source.Some? ==> s.source.value < |s.offsets|)
  }

  /** Columns are contiguous slices of one page: any two of them are apart by
      the column height times their distance. */
  predicate Aligned(o: seq<int>, height: int) {
    forall i, j :: 0 <= i < |o| && 0 <= j < |o| ==> o[j] - o[i] == height * (j - i)
  }

  /** Every column at the same offset. */
  predicate Mirrored(o: seq<int>) {
    forall i, j :: 0 <= i < |o| && 0 <= j < |o| ==> o[i] == o[j]
  }

  /** Column `k`'s offset as the handler reads it, clamped at zero. */
  function Reading(s: Sync, k: nat): (top: int)
    requires k < |s.offsets|
    ensures top >= 0 && top >= s.offsets[k]
    ensures s.offsets[k] >= 0 ==> top == s.offsets[k]
  {
    Max(0, s.offsets[k])
  }

  /** Another column's propagation is in flight. */
  predicate Blocked(s: Sync, k: nat) {
    s.source.Some? && s.source.value != k
  }

  /** Single-page mode, and column `k` reads above the point that stands for
      the top of the page in that column. */
  predicate BelowFloor(mode: DisplayMode, s: Sync, k: nat, height: nat)
    requires k < |s.offsets|
  {
    mode == SinglePage && Reading(s, k) < height * k
  }

  /** The event on column `k` is propagated to the other columns. */
  predicate Propagates(mode: DisplayMode, s: Sync, k: nat, height: nat)
    requires k < |s.offsets|
  {
    !Blocked(s, k) && !BelowFloor(mode, s, k, height)
  }

  /** Every column at its own floor: column `i` at `height * i`. */
  function FloorLayout(n: nat, height: nat): (o: seq<int>)
    ensures |o| == n
    ensures Aligned(o, height)
    ensures n > 0 ==> o[0] == 0
  {
    seq(n, i => height * i)
  }

  /** The writes of the `forEach` loop: the source is left alone, multi-page
      mode copies the reading, any other mode tiles from it. */
  function Propagate(mode: DisplayMode, o: seq<int>, k: nat, top: int, height: nat): (r: seq<int>)
    requires k < |o|
    ensures |r| == |o|
    ensures r[k] == o[k]
    ensures forall i :: 0 <= i < |o| && i != k ==>
              r[i] == if mode == MultiPage then top else top + height * (i - k)
  {
    seq(|o|, i requires 0 <= i < |o| =>
      if i == k then o[i] else if mode == MultiPage then top else top + height * (i - k))
  }

  lemma PropagateTiles(mode: DisplayMode, o: seq<int>, k: nat, top: int, height: nat)
    requires k < |o|
    ensures mode != MultiPage ==> Aligned(Propagate(mode, o, k, top, height)[k := top], height)
  {
    if mode == MultiPage { return; }
    var r := Propagate(mode, o, k, top, height)[k := top];
    forall i, j | 0 <= i < |r| && 0 <= j < |r|
      ensures r[j] - r[i] == height * (j - i)
    {
      assert r[i] == top + height * (i - k);
      assert r[j] == top + height * (j - k);
      assert height * (j - k) - height * (i - k) == height * (j - i);
    }
  }

  /** A scroll event on column `k`, with the column height read at that moment. */
  function Scroll(mode: DisplayMode, s: Sync, k: nat, height: nat): (r: Sync)
    requires k < |s.offsets|
    ensures |r.offsets| == |s.offsets|
    // another column's wave is in flight: nothing at all changes
    ensures Blocked(s, k) ==> r == s
    // floor reset: every column to its own floor, the guard left as it was
    ensures !Blocked(s, k) && BelowFloor(mode, s, k, height) ==>
              r.source == s.source && r.timerArmed == s.timerArmed
              && Aligned(r.offsets, height) && r.offsets[0] == 0
    // propagation: the guard takes the source, its timer restarts, the source
    // column is not written, and with the source at its reading the columns
    // are mirrored (multi-page) or tiled (otherwise)
    ensures Propagates(mode, s, k, height) ==>
              r.source == Some(k) && r.timerArmed && r.offsets[k] == s.offsets[k]
    ensures Propagates(mode, s, k, height) && mode == MultiPage ==>
              Mirrored(r.offsets[k := Reading(s, k)])
    ensures Propagates(mode, s, k, height) && mode != MultiPage ==>
              Aligned(r.offsets[k := Reading(s, k)], height)
    // in the two known modes no written offset is negative
    ensures !Blocked(s, k) && !mode.Unrecognised? ==>
              forall i :: 0 <= i < |r.offsets| && i != k ==> r.offsets[i] >= 0
    ensures Valid(s) ==> Valid(r)
  {
    if Blocked(s, k) then s
    else if BelowFloor(mode, s, k, height) then s.(offsets := FloorLayout(|s.offsets|, height))
    else
      var top := Reading(s, k);
      PropagateTiles(mode, s.offsets, k, top, height);
      Sync(Propagate(mode, s.offsets, k, top, height), Some(k), true)
  }

  /** The 100 ms timer fires: the guard is released and no offset changes.
      With no timer pending there is nothing to fire. */
  function TimerFired(s: Sync): (r: Sync)
    ensures r.offsets == s.offsets
    ensures s.timerArmed ==> r.source == None && !r.timerArmed
    ensures !s.timerArmed ==> r == s
    ensures Valid(s) ==> Valid(r) && r.source == None
  {
    if s.timerArmed then Sync(s.offsets, None, false) else s
  }

  /** The user moves column `k` to offset `top`: only that column changes. */
  function Moved(s: Sync, k: nat, top: int): (r: Sync)
    requires k < |s.offsets|
    ensures |r.offsets| == |s.offsets| && r.offsets[k] == top
    ensures forall i :: 0 <= i < |s.offsets| && i != k ==> r.offsets[i] == s.offsets[i]
    ensures r.source == s.source && r.timerArmed == s.timerArmed
  {
    s.(offsets := s.offsets[k := top])
  }

  /** A column's scroll position changed to `top`, which raises its `scroll`
      event (read with the column height at that moment), or the guard's
      timer elapsed. */
  datatype Event = Scrolled(column: nat, top: int, height: nat) | TimerElapsed

  predicate InRange(e: Event, n: nat) {
    e.Scrolled? ==> e.column < n
  }

  /** One event: a scroll is the column's move followed by the handler. */
  function Step(mode: DisplayMode, s: Sync, e: Event): (r: Sync)
    requires InRange(e, |s.offsets|)
    ensures |r.offsets| == |s.offsets|
    ensures Valid(s) ==> Valid(r)
    // while another column holds the guard, the move is all that happens
    ensures e.Scrolled? && Blocked(s, e.column) ==> r == Moved(s, e.column, e.top)
    // unless the floor reset puts it back, the moved column stays where it was moved
    ensures e.Scrolled? && !BelowFloor(mode, Moved(s, e.column, e.top), e.column, e.height) ==>
              r.offsets[e.column] == e.top
    ensures e.TimerElapsed? ==> r.offsets == s.offsets
    ensures e.TimerElapsed? && Valid(s) ==> r.source == None
  {
    match e
    case Scrolled(k, top, height) => Scroll(mode, Moved(s, k, top), k, height)
    case TimerElapsed => TimerFired(s)
  }

  /** A sequence of events; the guard and its timer stay together throughout,
      and timer events alone move no column. */
  function Run(mode: DisplayMode, s: Sync, events: seq<Event>): (r: Sync)
    requires forall i :: 0 <= i < |events| ==> InRange(events[i], |s.offsets|)
    ensures |r.offsets| == |s.offsets|
    ensures Valid(s) ==> Valid(r)
    ensures (forall i :: 0 <= i < |events| ==> events[i].TimerElapsed?) ==> r.offsets == s.offsets
    decreases |events|
  {
    if events == [] then s
    else Run(mode, Step(mode, s, events[0]), events[1..])
  }

  /** The offsets after the user's own moves alone, in order. */
  function UserMoves(o: seq<int>, events: seq<Event>): (r: seq<int>)
    requires forall i :: 0 <= i < |events| ==> InRange(events[i], |o|)
    ensures |r| == |o|
    ensures forall c :: 0 <= c < |o| && (forall i :: 0 <= i < |events| ==> !(events[i].Scrolled? && events[i].column == c))
              ==> r[c] == o[c]
    decreases |events|
  {
    if events == [] then o
    else
      assert InRange(events[0], |o|);
      var o' := if events[0].Scrolled? then o[events[0].column := events[0].top] else o;
      UserMoves(o', events[1..])
  }

  /** While the guard holds column `j`, scroll events on other columns, however
      many, only move the columns the user moved: the handler writes nothing
      and the guard stays; only the timer releases it. */
  lemma {:induction false} GuardHoldsUntilTimer(mode: DisplayMode, s: Sync, j: nat, events: seq<Event>)
    requires s.source == Some(j)
    requires forall i :: 0 <= i < |events| ==> InRange(events[i], |s.offsets|)
    requires forall i :: 0 <= i < |events| ==> events[i].Scrolled? && events[i].column != j
    ensures Run(mode, s, events) == s.(offsets := UserMoves(s.offsets, events))
    decreases |events|
  {
    if events != [] {
      var e := events[0];
      var s' := Moved(s, e.column, e.top);
      assert Step(mode, s, e) == s';
      GuardHoldsUntilTimer(mode, s', j, events[1..]);
    }
  }

  /** In multi-page mode, moving a free column to a non-negative offset
      brings every column to that offset and gives that column the guard. */
  lemma UserScrollMirrors(s: Sync, k: nat, top: nat, height: nat)
    requires k < |s.offsets| && !Blocked(s, k)
    ensures var r := Step(MultiPage, s, Scrolled(k, top, height));
            && r.source == Some(k) && r.timerArmed
            && forall i :: 0 <= i < |r.offsets| ==> r.offsets[i] == top
  {
    var m := Moved(s, k, top);
    assert Reading(m, k) == top;
    var r := Step(MultiPage, s, Scrolled(k, top, height));
    assert r == Scroll(MultiPage, m, k, height);
    assert r.offsets[k := top] == r.offsets;
    forall i | 0 <= i < |r.offsets| ensures r.offsets[i] == top {
      assert r.offsets[i] == r.offsets[k];
    }
  }

  /** In single-page mode, moving a free column to an offset of at least
      `height * k` tiles every column from it: column `i` goes to
      `top + height * (i - k)`. */
  lemma UserScrollTiles(s: Sync, k: nat, top: int, height: nat)
    requires k < |s.offsets| && !Blocked(s, k) && top >= height * k
    ensures var r := Step(SinglePage, s, Scrolled(k, top, height));
            && r.source == Some(k) && r.timerArmed
            && forall i :: 0 <= i < |r.offsets| ==> r.offsets[i] == top + height * (i - k)
  {
    var m := Moved(s, k, top);
    assert Reading(m, k) == top;
    var r := Step(SinglePage, s, Scrolled(k, top, height));
    assert r == Scroll(SinglePage, m, k, height);
    assert r.offsets[k := top] == r.offsets;
    forall i | 0 <= i < |r.offsets| ensures r.offsets[i] == top + height * (i - k) {
      assert r.offsets[i] - r.offsets[k] == height * (i - k);
    }
  }

  /** The scroll events the propagation's own writes raise on the other
      columns (each column reporting the offset just written to it) are
      dropped. */
  lemma EchoIgnored(mode: DisplayMode, s: Sync, k: nat, top: int, height: nat, j: nat, echoHeight: nat)
    requires k < |s.offsets| && j < |s.offsets| && j != k
    requires Propagates(mode, Moved(s, k, top), k, height)
    ensures var r := Step(mode, s, Scrolled(k, top, height));
            Step(mode, r, Scrolled(j, r.offsets[j], echoHeight)) == r
  {
    var r := Step(mode, s, Scrolled(k, top, height));
    assert r.source == Some(k);
    assert r.offsets[j := r.offsets[j]] == r.offsets;
  }

  /** Tiled columns starting at a non-negative offset are a resting layout in
      single-page mode: a scroll event on any column rewrites every other
      column with the offset it already has. */
  lemma AlignedIsFixedPoint(s: Sync, j: nat, height: nat)
    requires j < |s.offsets| && !Blocked(s, j)
    requires Aligned(s.offsets, height) && s.offsets[0] >= 0
    ensures Scroll(SinglePage, s, j, height).offsets == s.offsets
  {
    var o := s.offsets;
    assert o[j] - o[0] == height * j;
    assert Reading(s, j) == o[j];
    var r := Scroll(SinglePage, s, j, height).offsets;
    forall i | 0 <= i < |o| ensures r[i] == o[i] {
      if i != j {
        assert r[i] == o[j] + height * (i - j);
        assert o[i] - o[j] == height * (i - j);
      }
    }
  }

  /** Mirrored non-negative columns are a resting layout in multi-page mode. */
  lemma MirroredIsFixedPoint(s: Sync, j: nat, height: nat)
    requires j < |s.offsets| && !Blocked(s, j)
    requires Mirrored(s.offsets) && s.offsets[0] >= 0
    ensures Scroll(MultiPage, s, j, height).offsets == s.offsets
  {
    assert s.offsets[j] == s.offsets[0];
  }

  /** The floor reset does not arm the guard, so its writes raise scroll
      events that are not dropped; each of them leaves the offsets as the
      reset put them. */
  lemma FloorResetSettles(s: Sync, k: nat, height: nat, j: nat, echoHeight: nat)
    requires k < |s.offsets| && j < |s.offsets|
    requires !Blocked(s, k) && !Blocked(s, j) && BelowFloor(SinglePage, s, k, height)
    ensures Scroll(SinglePage, Scroll(SinglePage, s, k, height), j, height).offsets
            == Scroll(SinglePage, s, k, height).offsets
  {
    AlignedIsFixedPoint(Scroll(SinglePage, s, k, height), j, height);
  }

  /** A second event on the source before the timer fires changes nothing:
      the source keeps its offset, so the reading and every write repeat. */
  lemma RescrollIdempotent(mode: DisplayMode, s: Sync, k: nat, height: nat)
    requires k < |s.offsets| && Propagates(mode, s, k, height)
    ensures Scroll(mode, Scroll(mode, s, k, height), k, height) == Scroll(mode, s, k, height)
  {
    var r := Scroll(mode, s, k, height);
    assert r.offsets[k] == s.offsets[k];
    assert Reading(r, k) == Reading(s, k);
  }

  /** A display mode other than the two known names skips the floor but still
      tiles, so columns before the source can be written a negative offset: the
      non-negativity above is a property of the two known modes only. */
  lemma UnrecognisedModeWritesBelowZero()
    ensures Scroll(Unrecognised("x"), Sync([0, 0, 0], None, false), 2, 100).offsets[0] == -200
  {
  }
}

=== FILE: search_params.dfy ===
/** The part of the WHATWG URLSearchParams interface the application uses:
    an ordered list of name/value pairs with `get`, `getAll`, `set` and `append`
    (section 6.2 of the WHATWG URL Standard). Percent-encoding is not modelled:
    the list itself stands for the query string. */
module SearchParams {
  import opened Base

  type Query = seq<(string, string)>

  /** `getAll(name)`: the values of every pair with that name, in list order. */
  function GetAll(q: Query, name: string): (vs: seq<string>)
    ensures |vs| <= |q|
    ensures q == [] ==> vs == []
  {
    if q == [] then []
    else (if q[0].0 == name then [q[0].1] else []) + GetAll(q[1..], name)
  }

  /** `get(name)`: the value of the first pair with that name, `null` when there is none. */
  function Get(q: Query, name: string): (v: Option<string>)
    ensures v.None? <==> GetAll(q, name) == []
    ensures v.Some? ==> v.value == GetAll(q, name)[0]
  {
    if q == [] then None
    else if q[0].0 == name then Some(q[0].1)
    else Get(q[1..], name)
  }

  lemma GetAllSingle(key: string, value: string, name: string)
    ensures GetAll([(key, value)], name) == if key == name then [value] else []
  {
    assert [(key, value)][1..] == [];
  }

  predicate HasName(q: Query, name: string) {
    GetAll(q, name) != []
  }

  lemma {:induction false} GetAllConcat(a: Query, b: Query, name: string)
    ensures GetAll(a + b, name) == GetAll(a, name) + GetAll(b, name)
  {
    if a == [] {
      assert a + b == b;
    } else {
      assert (a + b)[1..] == a[1..] + b;
      GetAllConcat(a[1..], b, name);
    }
  }

  lemma GetAllConcatEvery(a: Query, b: Query)
    ensures forall name :: GetAll(a + b, name) == GetAll(a, name) + GetAll(b, name)
  {
    forall name ensures GetAll(a + b, name) == GetAll(a, name) + GetAll(b, name) {
      GetAllConcat(a, b, name);
    }
  }

  /** `append(name, value)`: a new pair at the end; other names are untouched. */
  function Append(q: Query, name: string, value: string): (r: Query)
    ensures GetAll(r, name) == GetAll(q, name) + [value]
    ensures forall other :: other != name ==> GetAll(r, other) == GetAll(q, other)
    ensures |r| == |q| + 1 && r[..|q|] == q
  {
    GetAllConcatEvery(q, [(name, value)]);
    q + [(name, value)]
  }

  /** Every pair named `name` removed, the others kept in order. */
  function RemoveName(q: Query, name: string): (r: Query)
    ensures GetAll(r, name) == []
    ensures forall other :: other != name ==> GetAll(r, other) == GetAll(q, other)
  {
    if q == [] then []
    else if q[0].0 == name then RemoveName(q[1..], name)
    else [q[0]] + RemoveName(q[1..], name)
  }

  /** The first pair named `name` gets `value`; later pairs with that name go. */
  function SetFirst(q: Query, name: string, value: string): (r: Query)
    requires HasName(q, name)
    ensures GetAll(r, name) == [value]
    ensures forall other :: other != name ==> GetAll(r, other) == GetAll(q, other)
  {
    if q[0].0 == name then [(name, value)] + RemoveName(q[1..], name)
    else [q[0]] + SetFirst(q[1..], name, value)
  }

  /** `set(name, value)`: replace the first pair with that name and drop the
      rest of them, or append when the name is absent. */
  function Set(q: Query, name: string, value: string): (r: Query)
    ensures GetAll(r, name) == [value] && Get(r, name) == Some(value)
    ensures forall other :: other != name ==> GetAll(r, other) == GetAll(q, other)
    ensures !HasName(q, name) ==> r == q + [(name, value)]
  {
    if HasName(q, name) then SetFirst(q, name, value) else Append(q, name, value)
  }

  /** Appends one pair per value, in order, as a `forEach` over `append` does. */
  function AppendEach(q: Query, name: string, values: seq<string>): (r: Query)
    ensures r == q + Pairs(name, values)
    decreases values
  {
    if values == [] then q
    else
      assert Pairs(name, values) == [(name, values[0])] + Pairs(name, values[1..]);
      assert q + Pairs(name, values) == (q + [(name, values[0])]) + Pairs(name, values[1..]);
      AppendEach(Append(q, name, values[0]), name, values[1..])
  }

  function Pairs(name: string, values: seq<string>): (r: Query)
    ensures |r| == |values|
    ensures forall i :: 0 <= i < |values| ==> r[i] == (name, values[i])
  {
    seq(|values|, i requires 0 <= i < |values| => (name, values[i]))
  }

  /** Reading back a run of appended pairs gives the values, in order, under
      their own name and nothing under any other. */
  lemma {:induction false} GetAllPairs(name: string, values: seq<string>, other: string)
    ensures GetAll(Pairs(name, values), other) == if other == name then values else []
  {
    if values != [] {
      assert Pairs(name, values)[1..] == Pairs(name, values[1..]);
      GetAllPairs(name, values[1..], other);
    }
  }
}

=== FILE: url_input.dfy ===
/** Editing an address field (`onUrlChange`, src/main.ts:175-204): the typed
    text is normalised and stored either as the single page's address or as
    one column's entry. */
module UrlInput {
  import opened Base
  import opened AppState

  const HttpPrefix := "http"
  const HttpsScheme := "https://"

  /** Which field was edited: the header's address (`index === null`) or the
      address field of one column. */
  datatype ColumnAddress = Primary | Indexed(index: nat)

  /** `https://` is put in front of any text that does not already start with
      `http`; text that does is kept as it is. */
  function Normalize(raw: string): (u: string)
    ensures HttpPrefix <= u
    ensures HttpPrefix <= raw <==> u == raw
    ensures !(HttpPrefix <= raw) <==> u == HttpsScheme + raw
  {
    if HttpPrefix <= raw then raw else HttpsScheme + raw
  }

  lemma NormalizeIdempotent(raw: string)
    ensures Normalize(Normalize(raw)) == Normalize(raw)
  {
  }

  /** `array[index] = value` on a JavaScript array: past the end the array grows
      to `index + 1` and the slots in between are holes. */
  function SetSlot(a: seq<Option<string>>, index: nat, value: string): (r: seq<Option<string>>)
    ensures |r| == Max(|a|, index + 1)
    ensures r[index] == Some(value)
    ensures forall i :: 0 <= i < |a| && i != index ==> r[i] == a[i]
    ensures forall i :: |a| <= i < index ==> r[i] == None
  {
    if index < |a| then a[index := Some(value)]
    else a + seq(index - |a|, _ => None) + [Some(value)]
  }

  /** The state change of `onUrlChange`: the normalised text goes to the edited
      field and nothing else changes. */
  function Assign(s: Settings, field: ColumnAddress, raw: string): (r: Settings)
    ensures r.mode == s.mode && r.columnsCount == s.columnsCount && r.columnsWidth == s.columnsWidth
    ensures field.Primary? ==> r.url == Normalize(raw) && r.urls == s.urls
    ensures field.Indexed? ==> r.url == s.url
    ensures field.Indexed? ==> |r.urls| == Max(|s.urls|, field.index + 1)
    ensures field.Indexed? ==> r.urls[field.index] == Some(Normalize(raw))
    ensures field.Indexed? ==>
              forall i :: 0 <= i < |s.urls| && i != field.index ==> r.urls[i] == s.urls[i]
    ensures field.Indexed? ==> forall i :: |s.urls| <= i < field.index ==> r.urls[i] == None
  {
    match field
    case Primary => s.(url := Normalize(raw))
    case Indexed(i) => s.(urls := SetSlot(s.urls, i, Normalize(raw)))
  }

  /** After an edit of a column's field outside single-page mode that column
      shows the normalised address and every other column shows what it
      showed before. */
  lemma AssignShowsEdit(s: Settings, field: ColumnAddress, raw: string, j: nat)
    requires s.mode != SinglePage && field.Indexed?
    ensures Shown(Assign(s, field, raw), field.index) == Some(Normalize(raw))
    ensures j != field.index ==> Shown(Assign(s, field, raw), j) == Shown(s, j)
  {
  }
}
